=== FILE: README.md ===
# Rock-paper-scissors game engine, modelled in Dafny

This project models the game engine of a browser rock-paper-scissors page
(`script.js`) as a pure state machine. The page's `gameState` becomes
`Game.GameState`: a win/loss/tie score, the current win or losing streak,
the newest-first history of at most ten rounds, the auto-play flag and the
history-panel flag. Every handler that changes this state is a function from
the old state (plus the values the page gets from `Math.random`, `Date.now` and
the clock, which the caller supplies here) to the new state.

Modules, following the structure of the script:

- `Config`: the move list `["rock", "paper", "scissors"]` and the history capacity 10.
- `Text`: the part of JavaScript's `toLowerCase` that validation and key dispatch depend on.
- `Rules`: moves, outcomes, `isValidMove`, the computer's move choice, and `determineGameWinner`.
  It also holds the beat relation as an independent cyclic definition.
- `Stats`: `updateMainScore` and `updateStreakData`. The score and streak after any
  sequence of results are related to a counting definition and a reference streak.
- `History`: `addGameToHistory`, and the newest-first contents after any sequence of additions.
- `Game`: `playGame` with its throw-and-catch for invalid moves, `resetScore`,
  `startAutoPlay`/`stopAutoPlay`/`toggleAutoPlay`, one auto-play tick, move-button
  clicks and the history toggle. It also shows how a run of rounds acts on each part
  of the state.
- `Keyboard`: `handleKeyboardInput` as a dispatch from (key, auto-play active) to an
  action, and the action applied to the state.

Behaviour the model keeps from the code as written:

- Validation lower-cases the move, but resolution compares strings exactly.
  So "Rock" is accepted and then loses to every computer move, including rock
  (`Rules.MixedCaseMoveAlwaysLoses`).
- JavaScript lower-cases U+212A KELVIN SIGN to "k", so "ROC" followed by a Kelvin
  sign is a valid move too.
- A tie is skipped by the streak rather than breaking it. So win, win, tie, win
  ends on a win streak of three, not one.
- The streak type is empty (`NoStreak`) when the page loads and after a reset.
- The "escape" case of the idle key lookup can never stop auto-play. The active
  case has already returned by then, so the guard it tests is always false there.

## Model

| member | source | states |
|---|---|---|
| `Rules.MoveAt` | script.js:77-80 | a random index below the move count selects the move whose name is at that index of the move list |
| `Rules.WinningCombination` | script.js:90-94 | the table has an entry exactly for the three lower-case move names, and each entry is a different move name |
| `Rules.DetermineGameWinner` | script.js:83-98 | the result is a tie exactly when the two move strings are equal, and a win only when both are move names |
| `Rules.DetermineGameWinnerMatchesBeats` | script.js:83-98 | on the three move names, the string resolver agrees with the cyclic beat relation: tie on equal moves, win exactly when the player's move beats the computer's, loss otherwise |
| `Rules.ResolveAntisymmetric` | script.js:83-98 | for distinct move names, the resolver gives a win for (a, b) exactly when it gives a loss for (b, a), and never a tie |
| `Rules.BeatsIsATournament` | script.js:90-94 | the winning table is asymmetric, irreflexive, and decides every pair of distinct moves one way |
| `Rules.BeatsOneAndLosesToOne` | script.js:90-94 | every move beats exactly one move and loses to exactly one move |
| `Rules.ThreeOfEachOutcome` | script.js:83-98 | the nine (player, computer) pairs are all listed, and they resolve to exactly three ties, three wins and three losses |
| `Rules.IsValidMove` | script.js:72-74 | a value is a valid move exactly when it is a string whose lower-case form is the name of a move |
| `Rules.NamesAreValid` | script.js:72-74 | each move name is valid, and so is its upper-case spelling |
| `Rules.MixedCaseMoveAlwaysLoses` | script.js:72-98 | a valid move that is not literally a lower-case move name loses against every computer move |
| `Rules.CapitalisedRockLosesToScissors` | script.js:72-98 | "Rock" and the Kelvin-sign spelling of ROCK are valid; "Rock" loses to scissors, which "rock" beats |
| `Stats.UpdateMainScore` | script.js:110-124 | exactly the counter of the given result grows by one, the others stay, and the total grows by one |
| `Stats.ScoreAfterCounts` | script.js:110-124 | after any sequence of results, each counter has grown by the number of times its result occurs, so the total has grown by the number of rounds |
| `Stats.UpdateStreakData` | script.js:127-141 | a tie leaves the streak as it is; a repeat of the current kind extends it by one; any other decisive result starts a streak of one of that kind; validity is kept |
| `Stats.StreakAfterIsExpected` | script.js:127-141 | from the empty streak, the streak after any results is the last decisive result and the length of its run at the end of the decisive results, ties removed |
| `Stats.StreakAfterValid` | script.js:29-32 | every streak reached from a valid one is valid: empty exactly when its length is 0, and never a tie streak |
| `Stats.RepeatBuildsStreak` | script.js:133-140 | k equal decisive results in a row from the empty streak give a streak of length k |
| `Stats.StreakSkipsTie` | script.js:127-141 | k wins (or losses), a tie and one more give a streak of k + 1: the tie is skipped, not a break |
| `Stats.ScoreOfRunWithTie` | script.js:110-124 | the same run counts k + 1 wins (or losses) and one tie |
| `History.AddGameToHistory` | script.js:144-164 | the new record comes first; what follows is the old history cut to at most nine records; the length is at most ten |
| `History.HistoryAfterIsNewestFirst` | script.js:157-163 | after any additions to a history of at most ten, the history is the new records newest first, then the old history, cut at ten |
| `History.LastRecordsNewestFirst` | script.js:157-163 | from an empty history, the history holds the last (at most ten) records added, newest first |
| `Game.UpdateGameStatistics` | script.js:101-107 | the score counts the given result and the streak takes the same result, so the total grows by one and a valid streak stays valid; the history and flags are left alone |
| `Game.TryPlayGame` | script.js:44-57 | an invalid move is rejected with no new state; a valid one is resolved, counted in the score, then in the streak, then recorded first in the history, with the same result everywhere |
| `Game.PlayGame` | script.js:44-69 | an invalid move leaves the state unchanged; a valid one puts its record first with both moves and the resolved result, keeps the old history after it cut to nine, counts that result in score and streak, and keeps the state valid |
| `Game.LizardIsRejected` | script.js:44-49 | "lizard" is rejected and the state stays as it was |
| `Game.StartAutoPlay` | script.js:388-400 | auto-play becomes active and nothing else changes |
| `Game.StopAutoPlay` | script.js:403-413 | auto-play becomes inactive and nothing else changes |
| `Game.ToggleAutoPlay` | script.js:368-386 | the auto-play flag flips and nothing else changes |
| `Game.ToggleAutoPlayTwice` | script.js:368-386 | toggling auto-play twice gives back the starting state |
| `Game.ToggleHistory` | script.js:427-451 | the history-panel flag flips and nothing else changes |
| `Game.AutoPlayTick` | script.js:388-392 | while auto-play runs, a tick plays one round of the random move against the computer's move, resolved and counted in score and streak, and auto-play keeps running; a stopped auto-play changes nothing; the panel flag and validity are kept |
| `Game.ClickMoveButton` | script.js:594-602 | a click while auto-play runs (buttons disabled) or with an invalid move changes nothing; otherwise it plays the button's own move against the computer's move, records it first and counts its result in score and streak; flags and validity are kept |
| `Game.ResetScore` | script.js:315-326 | auto-play is off afterwards, score, streak and history are cleared, and the history panel is untouched |
| `Game.ResetIsInitial` | script.js:315-326 | reset gives the load-time state apart from the history panel, and resetting twice is resetting once |
| `Game.PlayRoundsDecomposes` | script.js:44-57 | a run of rounds updates the score and streak by the valid rounds' results and the history by their records; invalid rounds leave no trace |
| `Game.ClearedGameSummary` | script.js:101-164 | from a cleared state, the score counts each result of the valid rounds, the streak is the reference streak, and the history is their last ten records newest first |
| `Game.PlayRoundsKeepsValid` | script.js:44-57 | every run of rounds keeps the streak valid and the history within ten |
| `Game.ResetThenPlay` | script.js:315-326 | after a reset, auto-play stays off and the total score equals the number of valid rounds played |
| `Keyboard.Dispatch` | script.js:458-507 | while auto-play is active, the only possible actions are none and toggling auto-play, and toggling happens exactly for the key "Escape"; while idle, no key toggles auto-play and only single-character keys act |
| `Keyboard.Perform` | script.js:470-505 | no action leaves the state alone; toggling flips only the auto-play flag; a move or random move plays one round of that move against the computer's move, recorded first and counted in score and streak; the history key flips only the panel flag; validity is kept |
| `Keyboard.HandleKeyboardInput` | script.js:458-507 | a key press keeps the state valid; while auto-play is active it changes at most the auto-play flag, and any key but "Escape" changes nothing; while idle, auto-play stays off |
| `Keyboard.IdleShortcuts` | script.js:468-499 | while idle, "r"/"R", "p"/"P" and "s"/"S" play rock, paper and scissors, space plays a random move, "h"/"H" toggles the history panel, each for exactly those keys |
| `Keyboard.IdleEscapeDoesNothing` | script.js:501-505 | while idle no key toggles auto-play, and "Escape" does nothing |
| `Keyboard.ActiveKeys` | script.js:460-466 | while auto-play is active, "Escape" stops it and changes nothing else; every other key leaves the state unchanged |
| `Keyboard.IdleKeys` | script.js:468-507 | while idle, auto-play stays off whatever the key; a move key plays exactly one round with its move |

## Left out

- Rendering: `displayGameResult`, the `update*Display` functions, `resetUIDisplays`,
  `toggleMoveButtons`, `provideFeedback`, `showTemporaryMessage` and `showErrorMessage`.
  They are presentation side effects. Their only effect on the model is that move
  buttons are disabled while auto-play runs (`Game.ClickMoveButton`).
- Exceptions from missing page elements. `toggleAutoPlay` and `toggleHistory` throw
  before changing anything when their element is missing. The model assumes the
  elements exist.
- Exceptions raised while rendering after a round has already changed the state.
  They are caught in `playGame` and do not undo the change; the model has no rendering.
- Timers: the 1500 ms auto-play period, the animation delays, and the handling of
  `setInterval`/`clearInterval`/`setTimeout`. Only the `isActive` flag is kept.
  `Game.AutoPlayTick` is one firing of the interval.
- Randomness: the computer's move, the auto-play move and the space-bar move are
  parameters. `Rules.MoveAt` shows how an index selects a move.
- Record `id` and `timestamp` (`Date.now`, `toLocaleTimeString`): parameters
  stored as given.
- The win-rate percentage, which uses floating-point division and rounding.
- Logging, initialization, event-listener wiring and page-unload cleanup.
- `event.preventDefault()` calls in the key handler.
- Counter width: JavaScript numbers are exact integers only up to 2^53. The
  counters here are unbounded; the page never gets near that bound.
- Non-string move values are collapsed into one `NonString` case. Validation
  rejects all of them alike.
- `Text.ToLower` lower-cases only 'A'..'Z' and the Kelvin sign. This gives the same
  answer as JavaScript's `toLowerCase` for every comparison the page makes, but not
  the same string for other upper-case characters.

=== FILE: config.dfy ===
/** The game's fixed configuration: the move names and the history capacity. */
module Config {

  /** The three move names, in the order a random index selects them. */
  const Moves: seq<string> := ["rock", "paper", "scissors"]

  /** The largest number of rounds the history keeps. */
  const MaxHistoryItems: nat := 10

  function Min(a: int, b: int): int {
    if a <= b then a else b
  }
}

=== FILE: game.dfy ===
/**
  The game session: the state the page keeps, one round of play, reset, and
  the auto-play and history-panel flags.

  The computer's move, the record's id and its timestamp come from
  `Math.random`, `Date.now` and the clock in the script; here the caller
  supplies them.
*/
module Game {
  import opened Config
  import opened Rules
  import opened Stats
  import opened History
  import opened Text

  /** The page's game state, without the auto-play timer handle. */
  datatype GameState = GameState(
    score: Score,
    streak: Streak,
    history: seq<GameRecord>,
    autoPlayActive: bool,
    showingHistory: bool)

  /** The state the page loads with. */
  const InitialState := GameState(ZeroScore, InitialStreak, [], false, false)

  predicate ValidState(s: GameState) {
    ValidStreak(s.streak) && |s.history| <= MaxHistoryItems
  }

  /** Same score, streak and history: the two states differ at most in their flags. */
  predicate SameGame(a: GameState, b: GameState) {
    a.score == b.score && a.streak == b.streak && a.history == b.history
  }

  /** What an attempted round produces: the new state and its record, or the rejected value. */
  datatype RoundResult = Played(state: GameState, record: GameRecord) | InvalidMove(value: JsValue)

  /** Score first, then streak, both from the same result. */
  function UpdateGameStatistics(s: GameState, result: Outcome): (r: GameState)
    ensures r.score == UpdateMainScore(s.score, result)
    ensures r.streak == UpdateStreakData(s.streak, result)
    ensures Total(r.score) == Total(s.score) + 1
    ensures ValidStreak(s.streak) ==> ValidStreak(r.streak)
    ensures r.history == s.history
    ensures r.autoPlayActive == s.autoPlayActive && r.showingHistory == s.showingHistory
  {
    s.(score := UpdateMainScore(s.score, result), streak := UpdateStreakData(s.streak, result))
  }

  /**
    One round up to the point where the script would throw: an invalid move is
    rejected before anything changes; a valid one is resolved against the
    computer's move, counted in the statistics, then added to the history.
  */
  function TryPlayGame(s: GameState, playerMove: JsValue, computerMove: Move, id: int, timestamp: string)
    : (r: RoundResult)
    ensures r.InvalidMove? <==> !IsValidMove(playerMove)
    ensures r.InvalidMove? ==> r.value == playerMove
    ensures r.Played? ==>
      && r.record.playerMove == playerMove.text
      && r.record.computerMove == Name(computerMove)
      && r.record.result == DetermineGameWinner(playerMove.text, Name(computerMove))
      && r.record.id == id && r.record.timestamp == timestamp
      && r.state.score == UpdateMainScore(s.score, r.record.result)
      && r.state.streak == UpdateStreakData(s.streak, r.record.result)
      && r.state.history == AddGameToHistory(s.history, r.record)
      && r.state.autoPlayActive == s.autoPlayActive
      && r.state.showingHistory == s.showingHistory
  {
    if !IsValidMove(playerMove) then InvalidMove(playerMove)
    else
      var computer := Name(computerMove);
      var result := DetermineGameWinner(playerMove.text, computer);
      var counted := UpdateGameStatistics(s, result);
      var rec := GameRecord(id, playerMove.text, computer, result, timestamp);
      Played(counted.(history := AddGameToHistory(counted.history, rec)), rec)
  }

  /**
    A round as the page runs it: the error of an invalid move is caught and
    reported, and the state stays as it was.
  */
  function PlayGame(s: GameState, playerMove: JsValue, computerMove: Move, id: int, timestamp: string)
    : (r: GameState)
    ensures !IsValidMove(playerMove) ==> r == s
    ensures IsValidMove(playerMove) ==>
      && Total(r.score) == Total(s.score) + 1
      && |r.history| == Min(|s.history| + 1, MaxHistoryItems)
      && r.history[0].playerMove == playerMove.text
      && r.history[0].computerMove == Name(computerMove)
      && r.history[0].result == DetermineGameWinner(playerMove.text, Name(computerMove))
      && r.history[1..] == s.history[..Min(|s.history|, MaxHistoryItems - 1)]
      && r.score == UpdateMainScore(s.score, r.history[0].result)
      && r.streak == UpdateStreakData(s.streak, r.history[0].result)
    ensures ValidState(s) ==> ValidState(r)
    ensures r.autoPlayActive == s.autoPlayActive && r.showingHistory == s.showingHistory
  {
    match TryPlayGame(s, playerMove, computerMove, id, timestamp)
    case Played(next, _) => next
    case InvalidMove(_) => s
  }

  function StartAutoPlay(s: GameState): (r: GameState)
    ensures r.autoPlayActive
    ensures SameGame(r, s) && r.showingHistory == s.showingHistory
  {
    s.(autoPlayActive := true)
  }

  function StopAutoPlay(s: GameState): (r: GameState)
    ensures !r.autoPlayActive
    ensures SameGame(r, s) && r.showingHistory == s.showingHistory
  {
    s.(autoPlayActive := false)
  }

  /** The auto-play button: stops a running auto-play, starts a stopped one. */
  function ToggleAutoPlay(s: GameState): (r: GameState)
    ensures r.autoPlayActive != s.autoPlayActive
    ensures SameGame(r, s) && r.showingHistory == s.showingHistory
  {
    if s.autoPlayActive then StopAutoPlay(s) else StartAutoPlay(s)
  }

  /** Toggling auto-play twice gives back the state it started from. */
  lemma ToggleAutoPlayTwice(s: GameState)
    ensures ToggleAutoPlay(ToggleAutoPlay(s)) == s
  {
  }

  /** The history button: shows a hidden panel or hides a shown one. */
  function ToggleHistory(s: GameState): (r: GameState)
    ensures r.showingHistory != s.showingHistory
    ensures SameGame(r, s) && r.autoPlayActive == s.autoPlayActive
  {
    s.(showingHistory := !s.showingHistory)
  }

  /**
    One firing of the auto-play interval: a round with the randomly picked
    move. A stopped auto-play has cleared its interval, so nothing fires.
  */
  function AutoPlayTick(s: GameState, randomMove: Move, computerMove: Move, id: int, timestamp: string)
    : (r: GameState)
    ensures !s.autoPlayActive ==> r == s
    ensures s.autoPlayActive ==>
      && r.autoPlayActive
      && Total(r.score) == Total(s.score) + 1
      && |r.history| > 0
      && r.history[0].playerMove == Name(randomMove)
      && r.history[0].computerMove == Name(computerMove)
      && r.history[0].result == DetermineGameWinner(Name(randomMove), Name(computerMove))
      && r.score == UpdateMainScore(s.score, r.history[0].result)
      && r.streak == UpdateStreakData(s.streak, r.history[0].result)
    ensures r.showingHistory == s.showingHistory
    ensures ValidState(s) ==> ValidState(r)
  {
    NamesAreValid(randomMove);
    if s.autoPlayActive then PlayGame(s, JsString(Name(randomMove)), computerMove, id, timestamp)
    else s
  }

  /**
    A click on a move button, whose move is the button's data attribute.
    Starting auto-play disables the move buttons and stopping it enables them
    again, so a click while auto-play runs does nothing.
  */
  function ClickMoveButton(s: GameState, dataMove: string, computerMove: Move, id: int, timestamp: string)
    : (r: GameState)
    ensures s.autoPlayActive ==> r == s
    ensures !IsValidMove(JsString(dataMove)) ==> r == s
    ensures !s.autoPlayActive && IsValidMove(JsString(dataMove)) ==>
      && Total(r.score) == Total(s.score) + 1
      && |r.history| > 0
      && r.history[0].playerMove == dataMove
      && r.history[0].computerMove == Name(computerMove)
      && r.history[0].result == DetermineGameWinner(dataMove, Name(computerMove))
      && r.score == UpdateMainScore(s.score, r.history[0].result)
      && r.streak == UpdateStreakData(s.streak, r.history[0].result)
    ensures r.autoPlayActive == s.autoPlayActive && r.showingHistory == s.showingHistory
    ensures ValidState(s) ==> ValidState(r)
  {
    if s.autoPlayActive then s else PlayGame(s, JsString(dataMove), computerMove, id, timestamp)
  }

  /**
    Stops a running auto-play first, then clears score, streak and history.
    The history panel's visibility is left as it was.
  */
  function ResetScore(s: GameState): (r: GameState)
    ensures !r.autoPlayActive
    ensures r.score == ZeroScore && r.streak == InitialStreak && r.history == []
    ensures ValidState(r)
    ensures r.showingHistory == s.showingHistory
  {
    var stopped := if s.autoPlayActive then ToggleAutoPlay(s) else s;
    stopped.(score := ZeroScore, streak := InitialStreak, history := [])
  }

  /** Reset returns to the state the page loads with, apart from the history panel. */
  lemma ResetIsInitial(s: GameState)
    ensures ResetScore(s) == InitialState.(showingHistory := s.showingHistory)
    ensures ResetScore(ResetScore(s)) == ResetScore(s)
  {
  }

  /** One attempted round: the move value, the computer's move and the clock readings. */
  datatype Round = Round(playerMove: JsValue, computerMove: Move, id: int, timestamp: string)

  function ResultOf(round: Round): Outcome
    requires IsValidMove(round.playerMove)
  {
    DetermineGameWinner(round.playerMove.text, Name(round.computerMove))
  }

  function RecordOf(round: Round): GameRecord
    requires IsValidMove(round.playerMove)
  {
    GameRecord(round.id, round.playerMove.text, Name(round.computerMove), ResultOf(round), round.timestamp)
  }

  /** The results of the valid rounds, in order; invalid ones are dropped. */
  function ResultsOf(rounds: seq<Round>): (r: seq<Outcome>)
    ensures |r| <= |rounds|
  {
    if |rounds| == 0 then []
    else
      var last := rounds[|rounds| - 1];
      ResultsOf(rounds[..|rounds| - 1]) + (if IsValidMove(last.playerMove) then [ResultOf(last)] else [])
  }

  /** The records of the valid rounds, in order; invalid ones are dropped. */
  function RecordsOf(rounds: seq<Round>): (r: seq<GameRecord>)
    ensures |r| == |ResultsOf(rounds)|
  {
    if |rounds| == 0 then []
    else
      var last := rounds[|rounds| - 1];
      RecordsOf(rounds[..|rounds| - 1]) + (if IsValidMove(last.playerMove) then [RecordOf(last)] else [])
  }

  /** The state after attempting `rounds` in order. */
  function PlayRounds(s: GameState, rounds: seq<Round>): GameState {
    if |rounds| == 0 then s
    else
      var last := rounds[|rounds| - 1];
      PlayGame(PlayRounds(s, rounds[..|rounds| - 1]), last.playerMove, last.computerMove, last.id, last.timestamp)
  }

  /**
    A run of rounds acts on each part of the state on its own: the score and
    the streak see the results of the valid rounds, the history sees their
    records, and invalid rounds leave no trace.
  */
  lemma {:induction false} PlayRoundsDecomposes(s: GameState, rounds: seq<Round>)
    ensures PlayRounds(s, rounds) == s.(
      score := ScoreAfter(s.score, ResultsOf(rounds)),
      streak := StreakAfter(s.streak, ResultsOf(rounds)),
      history := HistoryAfter(s.history, RecordsOf(rounds)))
  {
    if |rounds| > 0 {
      var pre := rounds[..|rounds| - 1];
      var last := rounds[|rounds| - 1];
      PlayRoundsDecomposes(s, pre);
      if IsValidMove(last.playerMove) {
        var results := ResultsOf(rounds);
        var records := RecordsOf(rounds);
        assert results == ResultsOf(pre) + [ResultOf(last)];
        assert records == RecordsOf(pre) + [RecordOf(last)];
        assert results[..|results| - 1] == ResultsOf(pre);
        assert records[..|records| - 1] == RecordsOf(pre);
        var before := PlayRounds(s, pre);
        var attempt := TryPlayGame(before, last.playerMove, last.computerMove, last.id, last.timestamp);
        assert attempt.Played? && attempt.record == RecordOf(last);
        assert PlayRounds(s, rounds) == attempt.state;
      } else {
        assert ResultsOf(rounds) == ResultsOf(pre);
        assert RecordsOf(rounds) == RecordsOf(pre);
      }
    }
  }

  /** Score, streak and history are as the page loads them and as a reset leaves them. */
  predicate Cleared(s: GameState) {
    s.score == ZeroScore && s.streak == InitialStreak && s.history == []
  }

  /**
    From a cleared state (a fresh page or right after a reset), the state after
    any run of rounds is determined by the valid rounds alone: the score counts
    their results, the streak is the reference streak, the history holds the
    last ten of them newest first, and the flags are untouched.
  */
  lemma ClearedGameSummary(s: GameState, rounds: seq<Round>)
    requires Cleared(s)
    ensures var r := PlayRounds(s, rounds);
      && r.score == Score(multiset(ResultsOf(rounds))[Win],
                          multiset(ResultsOf(rounds))[Lose],
                          multiset(ResultsOf(rounds))[Tie])
      && r.streak == ExpectedStreak(ResultsOf(rounds))
      && |r.history| == Min(|ResultsOf(rounds)|, MaxHistoryItems)
      && (forall i :: 0 <= i < |r.history| ==>
            r.history[i] == RecordsOf(rounds)[|RecordsOf(rounds)| - 1 - i])
      && r.autoPlayActive == s.autoPlayActive
      && r.showingHistory == s.showingHistory
  {
    PlayRoundsDecomposes(s, rounds);
    ScoreAfterCounts(s.score, ResultsOf(rounds));
    StreakAfterIsExpected(ResultsOf(rounds));
    LastRecordsNewestFirst(RecordsOf(rounds));
  }

  /** Every run of rounds keeps the state valid. */
  lemma {:induction false} PlayRoundsKeepsValid(s: GameState, rounds: seq<Round>)
    requires ValidState(s)
    ensures ValidState(PlayRounds(s, rounds))
  {
    if |rounds| > 0 {
      PlayRoundsKeepsValid(s, rounds[..|rounds| - 1]);
    }
  }

  /** Reset followed by any run of rounds is a cleared game. */
  lemma ResetThenPlay(s: GameState, rounds: seq<Round>)
    ensures Cleared(ResetScore(s))
    ensures !PlayRounds(ResetScore(s), rounds).autoPlayActive
    ensures Total(PlayRounds(ResetScore(s), rounds).score) == |ResultsOf(rounds)|
  {
    ClearedGameSummary(ResetScore(s), rounds);
  }

  /** "lizard" is not a move: the round is rejected and the state stays as it was. */
  lemma LizardIsRejected(s: GameState, computerMove: Move, id: int, timestamp: string)
    ensures TryPlayGame(s, JsString("lizard"), computerMove, id, timestamp) == InvalidMove(JsString("lizard"))
    ensures PlayGame(s, JsString("lizard"), computerMove, id, timestamp) == s
  {
    assert ToLower("lizard") == "lizard";
  }
}

=== FILE: history.dfy ===
/** The bounded, newest-first log of played rounds. */
module History {
  import opened Config
  import opened Rules

  /**
    One round as the history stores it. `id` and `timestamp` come from the
    clock and are opaque here; the moves are the strings the round was played
    with.
  */
  datatype GameRecord = GameRecord(
    id: int,
    playerMove: string,
    computerMove: string,
    result: Outcome,
    timestamp: string)

  /**
    Puts a record in front and, when that makes the history longer than the
    capacity, keeps only the first `MaxHistoryItems` records.
  */
  function AddGameToHistory(history: seq<GameRecord>, rec: GameRecord): (r: seq<GameRecord>)
    ensures 0 < |r| <= MaxHistoryItems
    ensures |r| == Min(|history| + 1, MaxHistoryItems)
    ensures r[0] == rec
    ensures r[1..] == history[..Min(|history|, MaxHistoryItems - 1)]
  {
    var pushed := [rec] + history;
    if |pushed| > MaxHistoryItems then pushed[..MaxHistoryItems] else pushed
  }

  /** The history after adding `records` one after the other, oldest first. */
  function HistoryAfter(history: seq<GameRecord>, records: seq<GameRecord>): seq<GameRecord> {
    if |records| == 0 then history
    else AddGameToHistory(HistoryAfter(history, records[..|records| - 1]), records[|records| - 1])
  }

  function Reverse<T>(s: seq<T>): (r: seq<T>)
    ensures |r| == |s|
    ensures forall i :: 0 <= i < |s| ==> r[i] == s[|s| - 1 - i]
  {
    if |s| == 0 then [] else [s[|s| - 1]] + Reverse(s[..|s| - 1])
  }

  /**
    After any sequence of additions, the history holds the newest records
    first, followed by what it held before, cut at the capacity.
  */
  lemma {:induction false} HistoryAfterIsNewestFirst(history: seq<GameRecord>, records: seq<GameRecord>)
    requires |history| <= MaxHistoryItems
    ensures HistoryAfter(history, records)
            == (Reverse(records) + history)[..Min(|records| + |history|, MaxHistoryItems)]
  {
    if |records| > 0 {
      var pre := records[..|records| - 1];
      var rec := records[|records| - 1];
      HistoryAfterIsNewestFirst(history, pre);
      var before := HistoryAfter(history, pre);
      var after := HistoryAfter(history, records);
      var expected := (Reverse(records) + history)[..Min(|records| + |history|, MaxHistoryItems)];
      assert Reverse(records) == [rec] + Reverse(pre);
      assert |after| == |expected|;
      forall i | 0 <= i < |after|
        ensures after[i] == expected[i]
      {
        if i > 0 {
          assert after[i] == after[1..][i - 1];
        }
      }
    }
  }

  /**
    Starting from an empty history, the history holds the last (at most ten)
    records added, newest first; so after eleven additions the first one is gone.
  */
  lemma LastRecordsNewestFirst(records: seq<GameRecord>)
    ensures |HistoryAfter([], records)| == Min(|records|, MaxHistoryItems)
    ensures forall i :: 0 <= i < |HistoryAfter([], records)| ==>
              HistoryAfter([], records)[i] == records[|records| - 1 - i]
  {
    HistoryAfterIsNewestFirst([], records);
    assert Reverse(records) + [] == Reverse(records);
  }
}

=== FILE: keyboard.dfy ===
/**
  The keyboard shortcuts: which action a key press selects, and what that
  action does to the game state.
*/
module Keyboard {
  import opened Text
  import opened Rules
  import opened Stats
  import opened Game

  /** What a key press asks for. */
  datatype Action =
    | NoAction
    | ToggleAutoPlayAction
    | PlayMove(move: Move)
    | PlayRandomMove
    | ToggleHistoryAction

  /**
    While auto-play runs, only the exact key name "Escape" does anything, and it
    toggles auto-play (which stops it). Otherwise the key name is lower-cased
    and looked up; the "escape" case there toggles auto-play only if it is
    running, which it cannot be on that path.
  */
  function Dispatch(key: string, isActive: bool): (a: Action)
    ensures isActive ==> (a == ToggleAutoPlayAction <==> key == "Escape")
    ensures isActive ==> a == NoAction || a == ToggleAutoPlayAction
    ensures !isActive ==> a != ToggleAutoPlayAction
    ensures !isActive && a != NoAction ==> |key| == 1
  {
    if isActive then
      if key == "Escape" then ToggleAutoPlayAction else NoAction
    else
      var k := ToLower(key);
      if k == "r" then PlayMove(Rock)
      else if k == "p" then PlayMove(Paper)
      else if k == "s" then PlayMove(Scissors)
      else if k == " " then PlayRandomMove
      else if k == "h" then ToggleHistoryAction
      else if k == "escape" then (if isActive then ToggleAutoPlayAction else NoAction)
      else NoAction
  }

  /**
    Applies an action. A played move goes through `PlayGame` with the move's
    name; the random move and the computer's move are supplied by the caller.
  */
  function Perform(s: GameState, action: Action, randomMove: Move, computerMove: Move, id: int, timestamp: string)
    : (r: GameState)
    ensures action == NoAction ==> r == s
    ensures action == ToggleAutoPlayAction ==>
      r.autoPlayActive != s.autoPlayActive && SameGame(r, s) && r.showingHistory == s.showingHistory
    ensures action.PlayMove? || action == PlayRandomMove ==>
      && Total(r.score) == Total(s.score) + 1
      && |r.history| > 0
      && r.history[0].playerMove == Name(if action.PlayMove? then action.move else randomMove)
      && r.history[0].computerMove == Name(computerMove)
      && r.history[0].result
         == DetermineGameWinner(Name(if action.PlayMove? then action.move else randomMove), Name(computerMove))
      && r.score == UpdateMainScore(s.score, r.history[0].result)
      && r.streak == UpdateStreakData(s.streak, r.history[0].result)
      && r.autoPlayActive == s.autoPlayActive && r.showingHistory == s.showingHistory
    ensures action == ToggleHistoryAction ==>
      r.showingHistory != s.showingHistory && SameGame(r, s) && r.autoPlayActive == s.autoPlayActive
    ensures ValidState(s) ==> ValidState(r)
  {
    NamesAreValid(randomMove);
    NamesAreValid(if action.PlayMove? then action.move else randomMove);
    match action
    case NoAction => s
    case ToggleAutoPlayAction => ToggleAutoPlay(s)
    case PlayMove(m) => PlayGame(s, JsString(Name(m)), computerMove, id, timestamp)
    case PlayRandomMove => PlayGame(s, JsString(Name(randomMove)), computerMove, id, timestamp)
    case ToggleHistoryAction => ToggleHistory(s)
  }

  /** A key press as the page handles it. */
  function HandleKeyboardInput(s: GameState, key: string, randomMove: Move, computerMove: Move, id: int, timestamp: string)
    : (r: GameState)
    ensures ValidState(s) ==> ValidState(r)
    ensures s.autoPlayActive ==> SameGame(r, s) && r.showingHistory == s.showingHistory
    ensures s.autoPlayActive && key != "Escape" ==> r == s
    ensures !s.autoPlayActive ==> !r.autoPlayActive
  {
    Perform(s, Dispatch(key, s.autoPlayActive), randomMove, computerMove, id, timestamp)
  }

  /** The single-character shortcuts, case-insensitively. */
  lemma IdleShortcuts(key: string)
    ensures Dispatch(key, false) == PlayMove(Rock) <==> key == "r" || key == "R"
    ensures Dispatch(key, false) == PlayMove(Paper) <==> key == "p" || key == "P"
    ensures Dispatch(key, false) == PlayMove(Scissors) <==> key == "s" || key == "S"
    ensures Dispatch(key, false) == PlayRandomMove <==> key == " "
    ensures Dispatch(key, false) == ToggleHistoryAction <==> key == "h" || key == "H"
  {
    if |key| == 1 {
      assert ToLower(key) == [LowerChar(key[0])];
    } else {
      assert |ToLower(key)| != 1;
    }
  }

  /**
    The "escape" case of the idle lookup can never toggle auto-play: no key
    starts or stops auto-play while it is off, Escape included.
  */
  lemma IdleEscapeDoesNothing(key: string)
    ensures Dispatch(key, false) != ToggleAutoPlayAction
    ensures Dispatch("Escape", false) == NoAction
  {
    assert ToLower("Escape") == "escape";
  }

  /**
    While auto-play runs, the only key with an effect is "Escape", which stops
    auto-play and changes nothing else; every other key leaves the state as it
    is, so no key plays a round.
  */
  lemma ActiveKeys(s: GameState, key: string, randomMove: Move, computerMove: Move, id: int, timestamp: string)
    requires s.autoPlayActive
    ensures key == "Escape" ==>
      HandleKeyboardInput(s, key, randomMove, computerMove, id, timestamp) == s.(autoPlayActive := false)
    ensures key != "Escape" ==>
      HandleKeyboardInput(s, key, randomMove, computerMove, id, timestamp) == s
  {
  }

  /**
    While auto-play is off it stays off, whatever key is pressed; a move key
    plays exactly one round with its move.
  */
  lemma IdleKeys(s: GameState, key: string, randomMove: Move, computerMove: Move, id: int, timestamp: string)
    requires !s.autoPlayActive
    ensures !HandleKeyboardInput(s, key, randomMove, computerMove, id, timestamp).autoPlayActive
    ensures Dispatch(key, false).PlayMove? ==>
      var r := HandleKeyboardInput(s, key, randomMove, computerMove, id, timestamp);
      && Total(r.score) == Total(s.score) + 1
      && r.history[0].playerMove == Name(Dispatch(key, false).move)
  {
    IdleEscapeDoesNothing(key);
    if Dispatch(key, false).PlayMove? {
      NamesAreValid(Dispatch(key, false).move);
    }
  }
}

=== FILE: rules.dfy ===
/**
  Moves, outcomes, move validation and round resolution.

  The script passes moves around as strings: the player's move is whatever
  value a button or a key handler supplies, and resolution compares strings
  exactly. So the resolver here works on strings, and `Move` is the typed view
  of the three lower-case names.
*/
module Rules {
  import opened Config
  import opened Text

  datatype Move = Rock | Paper | Scissors

  /** Always from the player's point of view. */
  datatype Outcome = Win | Lose | Tie

  /** A JavaScript value as far as validation can tell: a string, or anything else. */
  datatype JsValue = JsString(text: string) | NonString

  /** The result of a property lookup that may come back `undefined`. */
  datatype Lookup = Undefined | Found(value: string)

  /** The position of a move's name in `Moves`. */
  function Index(m: Move): (i: nat)
    ensures i < |Moves|
  {
    match m
    case Rock => 0
    case Paper => 1
    case Scissors => 2
  }

  function Name(m: Move): (r: string)
    ensures r == Moves[Index(m)]
  {
    match m
    case Rock => "rock"
    case Paper => "paper"
    case Scissors => "scissors"
  }

  /** The move a random index into `Moves` selects, as the computer's choice does. */
  function MoveAt(i: nat): (m: Move)
    requires i < |Moves|
    ensures Index(m) == i && Name(m) == Moves[i]
  {
    if i == 0 then Rock else if i == 1 then Paper else Scissors
  }

  /**
    The beat relation as a cycle over move positions: a move beats the one just
    before it, cyclically (paper beats rock, scissors beat paper, rock beats
    scissors).
  */
  predicate Beats(a: Move, b: Move) {
    (Index(a) - Index(b)) % 3 == 1
  }

  /** The reference resolution over typed moves. */
  function Resolve(player: Move, computer: Move): Outcome {
    if player == computer then Tie
    else if Beats(player, computer) then Win
    else Lose
  }

  /**
    The script's table of which move each move defeats. A name that is not one
    of its keys looks up `undefined`; inherited properties such as "constructor"
    look up non-string values, which compare unequal to every move name just as
    `undefined` does.
  */
  function WinningCombination(move: string): (r: Lookup)
    ensures r.Found? <==> move in Moves
    ensures r.Found? ==> r.value in Moves && r.value != move
  {
    if move == "rock" then Found("scissors")
    else if move == "paper" then Found("rock")
    else if move == "scissors" then Found("paper")
    else Undefined
  }

  /** The script's resolution: an exact string comparison, then a table lookup. */
  function DetermineGameWinner(playerMove: string, computerMove: string): (r: Outcome)
    ensures r == Tie <==> playerMove == computerMove
    ensures r == Win ==> playerMove in Moves && computerMove in Moves
  {
    if playerMove == computerMove then Tie
    else if WinningCombination(playerMove) == Found(computerMove) then Win
    else Lose
  }

  /** A value is a valid move when it is a string whose lower-case form is a move name. */
  predicate IsValidMove(v: JsValue): (valid: bool)
    ensures valid <==> v.JsString? && exists m :: ToLower(v.text) == Name(m)
  {
    assert Name(Rock) == Moves[0] && Name(Paper) == Moves[1] && Name(Scissors) == Moves[2];
    v.JsString? && ToLower(v.text) in Moves
  }

  /** On the three move names, the string resolver agrees with the beat relation. */
  lemma DetermineGameWinnerMatchesBeats(a: Move, b: Move)
    ensures DetermineGameWinner(Name(a), Name(b)) == Resolve(a, b)
    ensures DetermineGameWinner(Name(a), Name(b)) == Win <==> a != b && Beats(a, b)
  {
  }

  /** For distinct moves, a win one way round is a loss the other way round. */
  lemma ResolveAntisymmetric(a: Move, b: Move)
    requires a != b
    ensures DetermineGameWinner(Name(a), Name(b)) == Win <==> DetermineGameWinner(Name(b), Name(a)) == Lose
    ensures DetermineGameWinner(Name(a), Name(b)) != Tie
  {
    DetermineGameWinnerMatchesBeats(a, b);
    DetermineGameWinnerMatchesBeats(b, a);
  }

  /** Exactly one way round wins for every pair of distinct moves. */
  lemma BeatsIsATournament(a: Move, b: Move)
    ensures Beats(a, b) ==> !Beats(b, a)
    ensures a != b ==> Beats(a, b) || Beats(b, a)
    ensures !Beats(a, a)
  {
  }

  /** Every move beats exactly one move and loses to exactly one move. */
  lemma BeatsOneAndLosesToOne(a: Move)
    ensures exists b :: Beats(a, b)
    ensures exists b :: Beats(b, a)
    ensures forall b, c :: Beats(a, b) && Beats(a, c) ==> b == c
    ensures forall b, c :: Beats(b, a) && Beats(c, a) ==> b == c
  {
    var beaten := MoveAt((Index(a) + 2) % 3);
    assert Beats(a, beaten);
    var beater := MoveAt((Index(a) + 1) % 3);
    assert Beats(beater, a);
  }

  /** Every move's own name is valid, and so is its upper-case spelling. */
  lemma NamesAreValid(m: Move)
    ensures IsValidMove(JsString(Name(m)))
    ensures IsValidMove(JsString(Upper(m)))
  {
    ToLowerFixesLower(Name(m));
    assert ToLower(Upper(m)) == Name(m);
  }

  function Upper(m: Move): string {
    match m
    case Rock => "ROCK"
    case Paper => "PAPER"
    case Scissors => "SCISSORS"
  }
  /**
    Validation lower-cases but resolution does not: a valid move spelled with
    any upper-case letter (or a Kelvin sign) is never equal to a move name and
    is not a key of the winning table, so it loses against every computer move,
    even the move it names.
  */
  lemma MixedCaseMoveAlwaysLoses(s: string, computer: Move)
    requires IsValidMove(JsString(s))
    requires s !in Moves
    ensures DetermineGameWinner(s, Name(computer)) == Lose
  {
  }

  /** "Rock" passes validation, yet loses to scissors, which "rock" beats. */
  lemma CapitalisedRockLosesToScissors()
    ensures IsValidMove(JsString("Rock"))
    ensures DetermineGameWinner("Rock", "scissors") == Lose
    ensures DetermineGameWinner("rock", "scissors") == Win
    ensures IsValidMove(JsString("ROC" + [KelvinSign]))
  {
    assert ToLower("Rock") == "rock";
    assert ToLower("ROC" + [KelvinSign]) == "rock";
  }

  /** All nine (player, computer) pairs, each once. */
  const AllPairs: seq<(Move, Move)> :=
    [(Rock, Rock), (Rock, Paper), (Rock, Scissors),
     (Paper, Rock), (Paper, Paper), (Paper, Scissors),
     (Scissors, Rock), (Scissors, Paper), (Scissors, Scissors)]

  /** The outcome of each of the nine pairs, in the order of `AllPairs`. */
  function OutcomesOfAllPairs(): (r: seq<Outcome>)
    ensures |r| == |AllPairs|
  {
    seq(|AllPairs|, i requires 0 <= i < |AllPairs| =>
      DetermineGameWinner(Name(AllPairs[i].0), Name(AllPairs[i].1)))
  }

  /** The nine pairs split evenly: three ties, three wins and three losses. */
  lemma ThreeOfEachOutcome()
    ensures forall a, b :: (a, b) in AllPairs
    ensures multiset(OutcomesOfAllPairs())[Tie] == 3
    ensures multiset(OutcomesOfAllPairs())[Win] == 3
    ensures multiset(OutcomesOfAllPairs())[Lose] == 3
  {
    AllPairsListed();
    OutcomesOfAllPairsListed();
    CountInListed(Tie);
    CountInListed(Win);
    CountInListed(Lose);
  }

  /** Each outcome occurs three times in the listed outcomes, once per row. */
  lemma CountInListed(o: Outcome)
    ensures multiset([Tie, Lose, Win, Win, Tie, Lose, Lose, Win, Tie])[o] == 3
  {
    var listed := [Tie, Lose, Win, Win, Tie, Lose, Lose, Win, Tie];
    assert listed == listed[..3] + listed[3..6] + listed[6..];
    assert multiset(listed) == multiset(listed[..3]) + multiset(listed[3..6]) + multiset(listed[6..]);
  }

  lemma AllPairsListed()
    ensures forall a, b :: (a, b) in AllPairs
  {
    forall a, b ensures (a, b) in AllPairs {
      assert AllPairs[3 * Index(a) + Index(b)] == (a, b);
    }
  }

  /** The nine outcomes, row by row: a tie on the diagonal, then the cycle. */
  lemma OutcomesOfAllPairsListed()
    ensures OutcomesOfAllPairs() == [Tie, Lose, Win, Win, Tie, Lose, Lose, Win, Tie]
  {
    var r := OutcomesOfAllPairs();
    assert r[0] == Tie && r[1] == Lose && r[2] == Win;
    assert r[3] == Win && r[4] == Tie && r[5] == Lose;
    assert r[6] == Lose && r[7] == Win && r[8] == Tie;
  }
}

=== FILE: stats.dfy ===
/**
  The statistics the game keeps per round: the win/loss/tie score and the
  current win or losing streak.
*/
module Stats {
  import opened Rules

  datatype Score = Score(wins: nat, losses: nat, ties: nat)

  const ZeroScore := Score(0, 0, 0)

  function Total(s: Score): nat {
    s.wins + s.losses + s.ties
  }

  /** Counts one round: exactly the counter matching the result goes up by one. */
  function UpdateMainScore(s: Score, result: Outcome): (r: Score)
    ensures Total(r) == Total(s) + 1
    ensures r.wins == s.wins + 1 <==> result == Win
    ensures r.losses == s.losses + 1 <==> result == Lose
    ensures r.ties == s.ties + 1 <==> result == Tie
    ensures r.wins >= s.wins && r.losses >= s.losses && r.ties >= s.ties
  {
    match result
    case Win => s.(wins := s.wins + 1)
    case Lose => s.(losses := s.losses + 1)
    case Tie => s.(ties := s.ties + 1)
  }

  /** The score after counting `results` in order, starting from `s`. */
  function ScoreAfter(s: Score, results: seq<Outcome>): Score {
    if |results| == 0 then s
    else UpdateMainScore(ScoreAfter(s, results[..|results| - 1]), results[|results| - 1])
  }

  /**
    Counting a sequence of results adds, to each counter, the number of times
    its outcome occurs; so the total grows by the number of rounds.
  */
  lemma {:induction false} ScoreAfterCounts(s: Score, results: seq<Outcome>)
    ensures ScoreAfter(s, results).wins == s.wins + multiset(results)[Win]
    ensures ScoreAfter(s, results).losses == s.losses + multiset(results)[Lose]
    ensures ScoreAfter(s, results).ties == s.ties + multiset(results)[Tie]
    ensures Total(ScoreAfter(s, results)) == Total(s) + |results|
  {
    if |results| > 0 {
      var pre := results[..|results| - 1];
      ScoreAfterCounts(s, pre);
      assert results == pre + [results[|results| - 1]];
      assert multiset(results) == multiset(pre) + multiset{results[|results| - 1]};
    }
  }

  /** What the last decisive round was; `NoStreak` is the script's empty string. */
  datatype StreakType = NoStreak | StreakOf(result: Outcome)

  datatype Streak = Streak(current: nat, kind: StreakType)

  const InitialStreak := Streak(0, NoStreak)

  /**
    A streak either is the empty one, or records a win or a loss repeated at
    least once. Ties never become a streak.
  */
  predicate ValidStreak(st: Streak) {
    && (st.kind == NoStreak <==> st.current == 0)
    && st.kind != StreakOf(Tie)
  }

  /**
    Ties are skipped; a repeat of the current kind extends the streak; any other
    decisive result starts a new streak of length one.
  */
  function UpdateStreakData(st: Streak, result: Outcome): (r: Streak)
    ensures ValidStreak(st) ==> ValidStreak(r)
    ensures result == Tie ==> r == st
    ensures result != Tie ==> r.kind == StreakOf(result) && r.current >= 1
    ensures result != Tie && st.kind == StreakOf(result) ==> r.current == st.current + 1
    ensures result != Tie && st.kind != StreakOf(result) ==> r.current == 1
  {
    if result == Tie then st
    else if StreakOf(result) == st.kind then st.(current := st.current + 1)
    else Streak(1, StreakOf(result))
  }

  /** The streak after applying `results` in order, starting from `st`. */
  function StreakAfter(st: Streak, results: seq<Outcome>): Streak {
    if |results| == 0 then st
    else UpdateStreakData(StreakAfter(st, results[..|results| - 1]), results[|results| - 1])
  }

  /** The results with every tie removed, in order. */
  function Decisive(results: seq<Outcome>): (r: seq<Outcome>)
    ensures |r| <= |results|
    ensures forall i :: 0 <= i < |r| ==> r[i] != Tie
  {
    if |results| == 0 then []
    else if results[|results| - 1] == Tie then Decisive(results[..|results| - 1])
    else Decisive(results[..|results| - 1]) + [results[|results| - 1]]
  }

  /** How many of the last elements of `rs` equal `o`, counting back until one does not. */
  function TrailingRun(rs: seq<Outcome>, o: Outcome): (n: nat)
    ensures n <= |rs|
  {
    if |rs| == 0 || rs[|rs| - 1] != o then 0
    else 1 + TrailingRun(rs[..|rs| - 1], o)
  }

  /**
    A reference definition of the streak after a sequence of rounds played from
    the empty streak: nothing if no round was decisive, otherwise the last
    decisive result and how many times in a row it ends the decisive rounds.
  */
  function ExpectedStreak(results: seq<Outcome>): Streak {
    var d := Decisive(results);
    if |d| == 0 then InitialStreak
    else Streak(TrailingRun(d, d[|d| - 1]), StreakOf(d[|d| - 1]))
  }

  /** The streak state machine computes the reference streak. */
  lemma {:induction false} StreakAfterIsExpected(results: seq<Outcome>)
    ensures StreakAfter(InitialStreak, results) == ExpectedStreak(results)
  {
    if |results| > 0 {
      var pre := results[..|results| - 1];
      var o := results[|results| - 1];
      StreakAfterIsExpected(pre);
      assert results == pre + [o];
      ExpectedStreakStep(pre, o);
    }
  }

  /** One more result moves the reference streak exactly as the state machine does. */
  lemma ExpectedStreakStep(pre: seq<Outcome>, o: Outcome)
    ensures ExpectedStreak(pre + [o]) == UpdateStreakData(ExpectedStreak(pre), o)
  {
    var d := Decisive(pre);
    assert (pre + [o])[..|pre|] == pre;
    if o == Tie {
      assert Decisive(pre + [o]) == d;
    } else {
      var d' := d + [o];
      assert Decisive(pre + [o]) == d';
      assert d'[..|d|] == d;
      assert TrailingRun(d', o) == 1 + TrailingRun(d, o);
      if |d| > 0 && d[|d| - 1] != o {
        assert TrailingRun(d, o) == 0;
      }
    }
  }

  /** Every streak reached from a valid streak is valid. */
  lemma {:induction false} StreakAfterValid(st: Streak, results: seq<Outcome>)
    requires ValidStreak(st)
    ensures ValidStreak(StreakAfter(st, results))
  {
    if |results| > 0 {
      StreakAfterValid(st, results[..|results| - 1]);
    }
  }

  function Repeat(o: Outcome, k: nat): (r: seq<Outcome>)
    ensures |r| == k && forall i :: 0 <= i < k ==> r[i] == o
  {
    if k == 0 then [] else Repeat(o, k - 1) + [o]
  }

  /** A run of `k` equal decisive results from the empty streak is a streak of length `k`. */
  lemma {:induction false} RepeatBuildsStreak(o: Outcome, k: nat)
    requires o != Tie
    ensures StreakAfter(InitialStreak, Repeat(o, k)) == (if k == 0 then InitialStreak else Streak(k, StreakOf(o)))
  {
    if k > 0 {
      RepeatBuildsStreak(o, k - 1);
      assert Repeat(o, k)[..k - 1] == Repeat(o, k - 1);
    }
  }

  /**
    A tie inside a run is skipped: `k` wins (or losses), a tie, and one more of
    the same give a streak of `k + 1`, not a fresh streak of one. With `k == 2`
    this is the sequence win, win, tie, win, which ends on a win streak of three.
  */
  lemma StreakSkipsTie(o: Outcome, k: nat)
    requires o != Tie
    ensures StreakAfter(InitialStreak, Repeat(o, k) + [Tie, o]) == Streak(k + 1, StreakOf(o))
  {
    var run := Repeat(o, k);
    var withTie := run + [Tie];
    assert run + [Tie, o] == withTie + [o];
    RepeatBuildsStreak(o, k);
    StreakAfterAppend(InitialStreak, run, Tie);
    StreakAfterAppend(InitialStreak, withTie, o);
  }

  /** The same run counted: `k + 1` of the decisive result and one tie. */
  lemma ScoreOfRunWithTie(o: Outcome, k: nat)
    requires o != Tie
    ensures ScoreAfter(ZeroScore, Repeat(o, k) + [Tie, o])
            == (if o == Win then Score(k + 1, 0, 1) else Score(0, k + 1, 1))
  {
    var run := Repeat(o, k);
    var withTie := run + [Tie];
    assert run + [Tie, o] == withTie + [o];
    RepeatScore(o, k);
    ScoreAfterAppend(ZeroScore, run, Tie);
    ScoreAfterAppend(ZeroScore, withTie, o);
  }

  /** One more result is one more streak update. */
  lemma StreakAfterAppend(st: Streak, results: seq<Outcome>, o: Outcome)
    ensures StreakAfter(st, results + [o]) == UpdateStreakData(StreakAfter(st, results), o)
  {
    assert (results + [o])[..|results|] == results;
  }

  /** `k` equal decisive results from zero count `k` of that result and nothing else. */
  lemma {:induction false} RepeatScore(o: Outcome, k: nat)
    requires o != Tie
    ensures ScoreAfter(ZeroScore, Repeat(o, k)) == (if o == Win then Score(k, 0, 0) else Score(0, k, 0))
  {
    if k > 0 {
      RepeatScore(o, k - 1);
      assert Repeat(o, k)[..k - 1] == Repeat(o, k - 1);
    }
  }

  /** One more result is one more score update. */
  lemma ScoreAfterAppend(s: Score, results: seq<Outcome>, o: Outcome)
    ensures ScoreAfter(s, results + [o]) == UpdateMainScore(ScoreAfter(s, results), o)
  {
    assert (results + [o])[..|results|] == results;
  }
}

=== FILE: text.dfy ===
/**
  The part of JavaScript's `String.prototype.toLowerCase` that the game depends on.

  Every string the game compares a lower-cased value against ("rock", "paper",
  "scissors", "r", "p", "s", "h", "escape", " ") consists of lower-case ASCII
  letters and spaces. Besides those letters themselves, the characters whose
  lower-case form contains such a letter are 'A'..'Z', U+212A KELVIN SIGN, which
  lower-cases to 'k', and U+0130 LATIN CAPITAL LETTER I WITH DOT ABOVE, which
  lower-cases to 'i' followed by U+0307 COMBINING DOT ABOVE. The combining dot
  occurs in none of the names, so a string holding U+0130 matches none of them
  either way, and it is left unchanged here, as is every other character: their
  lower-case forms hold no lower-case ASCII letter, so membership tests against
  those names come out the same.
*/
module Text {

  const KelvinSign: char := '\U{212A}'

  predicate IsAsciiUpper(c: char) {
    'A' <= c <= 'Z'
  }

  function LowerChar(c: char): char {
    if IsAsciiUpper(c) then (c as int + 32) as char
    else if c == KelvinSign then 'k'
    else c
  }

  function ToLower(s: string): (r: string)
    ensures |r| == |s|
  {
    seq(|s|, i requires 0 <= i < |s| => LowerChar(s[i]))
  }

  /** Lower-casing fixes every string without upper-case ASCII letters or a Kelvin sign. */
  lemma ToLowerFixesLower(s: string)
    requires forall i :: 0 <= i < |s| ==> !IsAsciiUpper(s[i]) && s[i] != KelvinSign
    ensures ToLower(s) == s
  {
  }
}
